=== FILE: README.md ===
# Rideshare detour distance, modelled in Dafny

This project models the rideshare detour calculator of the `lyft-challenge`
repository. Driver one travels from A to B and driver two from C to D. The
calculator finds the smaller of two extra distances: ACDB − AB, the extra
miles driver one covers by picking up and dropping off driver two, and
CABD − CD, the same for driver two. All path finding goes to the Bing Maps
routing service. The repository's own logic is:

- the `Detour` predicates: `valid?`, `invalid?` and `no_distance?`;
- `DistanceCalculator.distance`, with its nil/invalid guard, its zero-distance
  short-circuit, the order of the requested waypoints, and the mapping of the
  service's replies to a distance, to Infinity or to a `DistanceError`;
- `DistanceCalculator.minimum_detour_distance`, with its nil guard, its early
  exit on an unreachable ACDB, and its `min` of two differences.

Files:

- `ruby_values.dfy` (`RubyValues`) covers the Ruby values that flow through the
  calculator: nil, finite floats, ±Infinity and NaN. It gives Ruby's `-` on
  them, including nil's `NoMethodError`/`TypeError` and IEEE rules such as
  ∞ − ∞ = NaN. It also models `Array#min` as Ruby's scan: keep the first
  element, replace it on a strictly smaller one, raise `ArgumentError` when
  `<=>` returns nil (NaN, or nil against a number; `nil <=> nil` is 0).
- `coordinate.dfy` (`Coordinates`) is a latitude/longitude pair. Only its
  equality is used.
- `detour.dfy` (`Detours`) holds `Detour` and its predicates.
- `routing.dfy` (`Routing`) is the boundary to the routing service. A request
  is an ordered list of waypoints: `Stop` is sent as `wp.N` and `Via` as
  `vwp.N`. A reply is one of: a distance, an HTTP error status, an unparseable
  body, a body missing `resourceSets[0]`/`resources[0]`, or a first resource
  without `travelDistance`. The service is a function parameter
  `Provider = Route -> Reply`.
- `distance_calculator.dfy` (`DistanceCalculator`) holds the two operations.
  Each returns a `Run`: a returned value or a raised exception, together with
  the routing requests it issued, in order.
- `distance_properties.dfy` (`DistanceProperties`) holds lemmas that relate
  several calls.

Nil is `None` of `RubyValues.Option`, and a raised exception is
`Raised(error)`. A `Detour` with both ends nil is valid, but serialising its
ends calls a method on nil. It is modelled as a `NoMethodError` raised before
any request.

## Model

| member | source | states |
|---|---|---|
| Detours.New | lib/detour.rb:10-12 | construction keeps both ends exactly as given |
| Detours.Valid | lib/detour.rb:14-16 | valid iff both ends present or both absent; a valid detour never names exactly one place unless both ends are that place |
| Detours.Invalid | lib/detour.rb:18-20 | exactly the negation of `valid?`; an invalid detour names exactly one place |
| Detours.NoDistance | lib/detour.rb:22-24 | true iff the detour names at most one distinct place (an end is nil or both ends are equal) |
| Detours.HalfDetourInvalid | lib/detour.rb:14-20 | `Detour(nil, x)` and `Detour(x, nil)` are invalid, `Detour(nil, nil)` is valid |
| Detours.NoDistanceCases | lib/detour.rb:22-24 | a missing end gives `no_distance?`; so does `Detour(x, x)` for every `x` |
| Detours.DistinctEndsTravel | lib/detour.rb:14-24 | a valid detour with two present, unequal ends has distance |
| RubyValues.Subtract | distance_calculator.rb:89-92 | Ruby `-`: nil receiver raises NoMethodError, nil argument TypeError; NaN exactly for NaN operands or ∞ − ∞ of one sign; finite operands subtract as reals; a difference is never nil; a defined difference with an infinite operand is infinite unless NaN, and its sign is the order of the operands (so ∞ − finite = ∞, finite − ∞ = −∞) |
| RubyValues.ArrayMin | distance_calculator.rb:94 | `[..].min`: nil for an empty array, the element itself for one; for two or more, ArgumentError iff some element is NaN or a nil sits next to a non-nil; otherwise an element of the array, nil when the array holds nil, and ≤ every element when it does not |
| RubyValues.MinFrom | distance_calculator.rb:94 | the scan behind `min`: raises iff the values are neither all numbers other than NaN nor all nil; otherwise returns the running minimum or a later element, nil when the running minimum is nil, and ≤ all of them when it is a number |
| RubyValues.NilsCompareEqual | distance_calculator.rb:94 | `[nil, nil].min` is nil, while nil next to a number raises ArgumentError |
| RubyValues.MinOfTwo | distance_calculator.rb:94 | `[x, y].min` keeps `x` unless `y` is strictly smaller |
| RubyValues.MinIsInfinityOnlyWhenBothAre | distance_calculator.rb:76-77 | Infinity is the minimum only when both candidates are Infinity |
| DistanceCalculator.InterpretAsWritten | distance_calculator.rb:47-66 | as written: 404 ↔ Infinity; other statuses raise DistanceError carrying that status; non-JSON raises the invalid-response DistanceError and missing structure the incomplete-response one; a resource without `travelDistance` returns nil |
| DistanceCalculator.Interpret | distance_calculator.rb:47-66 | corrected: 404 ↔ Infinity; returns iff a distance or 404; every other reply raises DistanceError, never Infinity; agrees with the as-written reading except for the missing `travelDistance` |
| DistanceCalculator.ZeroTrip | distance_calculator.rb:18-19 | a trip needs no travel iff start equals terminus and there is no detour, or the detour starts at the trip's start and ends there or at nil; a detour that only ends at the start still needs travel |
| DistanceCalculator.RouteFor | distance_calculator.rb:27-36 | the request begins with the start stop and ends with the terminus stop; the detour's start then terminus are via points between them; no route when a detour end is nil |
| DistanceCalculator.Distance | distance_calculator.rb:13-67 | at most one request; nil end or invalid detour → Infinity with no request; a zero trip → 0 with no request; a request is issued exactly for a non-zero trip with present ends and a detour that has both ends or none; it is the trip's route, and its reply decides the outcome; between present ends, `Detour(nil, nil)` raises NoMethodError with no request, and it is the only raise without a request; never returns anything but a finite distance or Infinity |
| DistanceCalculator.ExtraDistance | distance_calculator.rb:89 | `withDetour - distance(x, y)`: no request when x is y, and then `withDetour` itself, or NoMethodError for a nil `withDetour`; otherwise exactly the request [x, y]; a found distance d gives `withDetour − d` (a finite difference for a finite `withDetour`); a 404 makes a finite `withDetour` −Infinity; a failing reply's DistanceError wins over the subtraction |
| DistanceCalculator.MinimumDetourDistance | distance_calculator.rb:78-96 | at most four requests; any nil argument → Infinity with no request; a non-Infinity result or a DistanceError needs at least one request unless all four points coincide |
| DistanceCalculator.MinimumAfterAcdb | distance_calculator.rb:89-94 | at most three further requests; a `DistanceError` only after at least one of them |
| DistanceCalculator.MinimumAfterAb | distance_calculator.rb:91-94 | at most two further requests; a `DistanceError` only after at least one of them |
| DistanceProperties.AfterAbNotInfinity | distance_calculator.rb:91-94 | when ACDB − AB is an ordered value other than Infinity, the min of the two extra distances is not Infinity |
| DistanceProperties.NilEndUnreachable | distance_calculator.rb:14-16 | a nil start or terminus gives Infinity and no request, for any detour |
| DistanceProperties.HalfDetourUnreachable | distance_calculator.rb:14-15 | a detour with one nil end gives Infinity and no request |
| DistanceProperties.DistanceToItself | distance_calculator.rb:18-19 | `distance(p, p)` is 0 with no request |
| DistanceProperties.RoundTripThroughDetour | distance_calculator.rb:18-36 | `distance(p, p, Detour(s, t))` issues no request iff `s == p` and the detour has no distance, and then is 0; otherwise it requests exactly `[p, via s, via t, p]` |
| DistanceProperties.RoundTripElsewhereQueries | distance_calculator.rb:18-20 | the asymmetric test: a round trip whose detour does not start at `p`, or has two distinct ends, is sent to the service |
| DistanceProperties.EmptyDetourCrashes | distance_calculator.rb:30-33 | `Detour(nil, nil)` raises NoMethodError with no request |
| DistanceProperties.WaypointOrder | distance_calculator.rb:27-36 | between distinct points the request is `[start, terminus]` without a detour and `[start, via detour.start, via detour.terminus, terminus]` with one, and the reply decides the outcome |
| DistanceProperties.UnreachableIffNotFound | distance_calculator.rb:49-66 | Infinity iff unusable input or a 404 reply; DistanceError iff the request got a reply that is neither a distance nor 404 |
| DistanceProperties.EarlyExitAfterOneQuery | distance_calculator.rb:82-87 | an unreachable ACDB returns Infinity after exactly the one ACDB request |
| DistanceProperties.UnreachableOnlyThroughAcdb | distance_calculator.rb:80-94 | with four points present the result is Infinity iff ACDB is |
| DistanceProperties.MinimumIsSmallerDetour | distance_calculator.rb:89-94 | a returned result is ACDB − AB or CABD − CD and is ≤ both |
| DistanceProperties.UnreachableCabdFallsBack | distance_calculator.rb:89-94 | an unreachable CABD with finite ACDB, AB and CD gives exactly ACDB − AB |
| DistanceProperties.QueriesInOrder | distance_calculator.rb:82-92 | the requests issued are ACDB, AB, CABD, CD in that order, each possibly left out |
| DistanceProperties.AfterAbQueriesInOrder | distance_calculator.rb:91-92 | driver two's side requests CABD then CD, each possibly left out |
| DistanceProperties.AfterAcdbQueriesInOrder | distance_calculator.rb:89-92 | after ACDB, the requests are AB, CABD, CD in order, each possibly left out |
| DistanceProperties.AfterAbRequests | distance_calculator.rb:91-92 | driver two's side requests a prefix of its non-zero trips (CABD unless all points coincide, CD unless C is D), and all of them when it returns |
| DistanceProperties.AfterAcdbRequests | distance_calculator.rb:89-92 | after ACDB the requests are a prefix of AB (unless A is B) followed by driver two's non-zero trips, and all of them when it returns |
| DistanceProperties.RequestsAreNonZeroTrips | distance_calculator.rb:80-94 | the requests are a prefix of the non-zero trips ACDB, AB, CABD, CD in order, and a result other than Infinity or an exception means every one of them was requested |
| DistanceProperties.EveryTripRequested | distance_calculator.rb:80-94 | with A ≠ B, C ≠ D and a service that finds every route, exactly ACDB, AB, CABD, CD are requested, in that order |
| DistanceProperties.AfterAbFailureEnds | distance_calculator.rb:91-94 | on driver two's side a failing reply is the last request and its error is raised |
| DistanceProperties.AfterAcdbFailureEnds | distance_calculator.rb:89-94 | after ACDB a failing reply is the last request and its error is raised |
| DistanceProperties.FailingReplyPropagates | distance_calculator.rb:55-65 | a failing reply to any request is the last request issued and its DistanceError is what `minimum_detour_distance` raises |
| DistanceProperties.DirectReachable | distance_calculator.rb:84-86 | for a routing service consistent about unreachable places, a finite ACDB makes AB finite |
| DistanceProperties.SwappedReachable | distance_calculator.rb:84-86 | for such a service, a finite ACDB makes CABD finite |
| DistanceProperties.ConsistentProviderGivesDistance | distance_calculator.rb:84-94 | for such a service the result is a finite distance or Infinity, never −Infinity or NaN |
| DistanceProperties.InconsistentProviderGivesNegativeInfinity | distance_calculator.rb:84-94 | without that assumption the result can be −Infinity: ACDB found but AB answered 404 gives ACDB − AB = −Infinity, which `min` keeps |
| DistanceProperties.MissingTravelDistanceReturnsNil | distance_calculator.rb:61-66 | as written a missing `travelDistance` returns nil, which then fails in the subtraction with NoMethodError or TypeError; the corrected reading raises DistanceError |
| DistanceProperties.ExtraNotNegative | distance_calculator.rb:89 | for a service whose detours are never shorter, a finite ACDB − AB is ≥ 0 (−Infinity, from a 404 on AB, is excluded only with island consistency as well) |
| DistanceProperties.AfterAbNotNegative | distance_calculator.rb:91-94 | for such a service, driver two's side keeps a finite result ≥ 0 when ACDB − AB is ≥ 0 or not finite |
| DistanceProperties.AfterAcdbNotNegative | distance_calculator.rb:89-94 | for such a service, a finite result of everything after ACDB is ≥ 0 |
| DistanceProperties.DetourDistanceNotNegative | distance_calculator.rb:78-96 | for a service with non-negative distances whose detours are never shorter, a finite minimum detour distance is ≥ 0 (−Infinity stays possible unless the service is also island-consistent) |

## Left out

- HTTP plumbing is not modelled: the query parameters, `CGI.escape`, `URI::HTTP.build`, the host and path constants, and `open(url)` (distance_calculator.rb:22-48). They are replaced by one `Provider` call on the ordered waypoints.
- Reading the API key from `key.txt` is file I/O and is left out. Its possible `Errno` exceptions are left out too.
- Network failures other than an HTTP error status (DNS, timeouts, refused connections) are not rescued by the source. They are left out.
- JSON decoding is collapsed into the `Reply` cases. A JSON body of an unexpected type makes the navigation at line 62 raise `TypeError` rather than `NoMethodError`, and this case is not distinguished. A `travelDistance` that is not a number is left out; `Found` carries a real.
- Floating point is replaced by reals with explicit ±Infinity and NaN, so rounding is not modelled. Integer `0` and Float `0.0` are not told apart.
- `Coordinate` comes from `lib/coordinate.rb`, which is not part of this model. Its `==` is taken to be structural equality. Its query-parameter serialisation, and the serialise/parse round trip, are left out because that source is not available.
- The routing service is a fixed function, so the same request always gets the same reply. A service whose answers change between the requests of one call is not modelled.
- DistanceCalculator.Distance: `Distance` uses the corrected reading of a reply with no `travelDistance` (see Findings). The code as written returns nil there, and that is modelled separately by `InterpretAsWritten`.
- DistanceCalculator.MinimumDetourDistance: inherits the corrected reading. As written, an ACDB reply with no `travelDistance` returns nil, the AB request is still issued, and `nil - …` then raises `NoMethodError` instead of a `DistanceError`.
- DistanceProperties.UnreachableIffNotFound: stated for the corrected reading. As written, a reply with no `travelDistance` returns nil: neither Infinity nor a `DistanceError`.
- DistanceProperties.FailingReplyPropagates: stated for the corrected reading. As written, an ACDB or CABD reply with no `travelDistance` is followed by one more request (AB or CD), and then `nil - …` raises `NoMethodError`. An AB or CD reply with no `travelDistance` ends the run at once, with `TypeError` from `acdb - nil` or `cabd - nil`.
- DistanceCalculator.ExtraDistance: its failing-reply clause uses the corrected reading. As written, a direct reply with no `travelDistance` makes line 89 or 92 compute `withDetour - nil`, which raises `TypeError` instead of a `DistanceError` (for a nil `withDetour`, `NoMethodError`).
- DistanceProperties.AfterAbFailureEnds: stated for the corrected reading. As written, a CABD reply with no `travelDistance` is not the last request: CD is still requested, and then `nil - …` raises `NoMethodError`. A CD reply with no `travelDistance` raises `TypeError`.
- DistanceProperties.AfterAcdbFailureEnds: stated for the corrected reading. As written, an AB reply with no `travelDistance` raises `TypeError` at line 89 rather than a `DistanceError`. CABD and CD replies behave as described for `AfterAbFailureEnds`.
- When C = D, ACDB and AB are still different requests. Whether they get the same distance depends on the routing service, so no lemma states it.

## Findings

| source | as written | input that shows it | evidently intended | confidence | as-written member | corrected member |
|---|---|---|---|---|---|---|
| distance_calculator.rb:61-66 | `response['resourceSets'][0]['resources'][0]['travelDistance']` reads a missing key as nil. No `NoMethodError` is raised, so `distance` returns nil. | an HTTP 200 body `{"resourceSets":[{"resources":[{}]}]}` | raise `DistanceError('Incomplete response…')`, as the method's comment (lines 8-12) promises a distance, Infinity or a `DistanceError` | high; not executed | DistanceCalculator.InterpretAsWritten (exhibited by DistanceProperties.MissingTravelDistanceReturnsNil) | DistanceCalculator.Interpret (never returns nil; used by `Distance`) |

=== FILE: coordinate.dfy ===
/** A geographic point. The calculator only ever compares coordinates for
    equality, which is structural. */
module Coordinates {

  datatype Coordinate = Coordinate(latitude: real, longitude: real)
}

=== FILE: detour.dfy ===
/** A detour: an optional leg, from `start` to `terminus`, that a trip is
    routed through. Either end may be nil. */
module Detours {
  import opened RubyValues
  import opened Coordinates

  datatype Detour = Detour(start: Option<Coordinate>, terminus: Option<Coordinate>)

  /** `Detour.new(start, terminus)`: keeps both ends as given. */
  function New(start: Option<Coordinate>, terminus: Option<Coordinate>): (d: Detour)
    ensures d.start == start && d.terminus == terminus
  {
    Detour(start, terminus)
  }

  /** The distinct coordinates a detour names. */
  function Ends(d: Detour): set<Coordinate> {
    (if d.start.Some? then {d.start.value} else {})
    + (if d.terminus.Some? then {d.terminus.value} else {})
  }

  /** `valid?`: both ends present or both absent. */
  function Valid(d: Detour): (b: bool)
    ensures b <==> (d.start.Some? <==> d.terminus.Some?)
    ensures b ==> |Ends(d)| != 1 || d.start == d.terminus
  {
    if d.start.None? then d.terminus.None? else d.terminus.Some?
  }

  /** `invalid?`: exactly one end is present. */
  function Invalid(d: Detour): (b: bool)
    ensures b <==> !Valid(d)
    ensures b ==> |Ends(d)| == 1
  {
    !Valid(d)
  }

  /** `no_distance?`: the detour names at most one place, so travelling it
      adds nothing. */
  function NoDistance(d: Detour): (b: bool)
    ensures b <==> |Ends(d)| <= 1
  {
    d.start.None? || d.terminus.None? || d.start == d.terminus
  }

  /** A detour with exactly one end is invalid, whichever end it is. */
  lemma HalfDetourInvalid(x: Coordinate)
    ensures Invalid(Detour(None, Some(x)))
    ensures Invalid(Detour(Some(x), None))
    ensures Valid(Detour(None, None))
  {
  }

  /** A detour missing an end, or whose ends coincide, adds no distance. */
  lemma NoDistanceCases(d: Detour, x: Coordinate)
    ensures d.start.None? || d.terminus.None? ==> NoDistance(d)
    ensures NoDistance(Detour(Some(x), Some(x)))
  {
  }

  /** A valid detour between two different places adds distance. */
  lemma DistinctEndsTravel(d: Detour)
    requires Valid(d) && d.start.Some? && d.start != d.terminus
    ensures !NoDistance(d)
  {
  }
}

=== FILE: distance_calculator.dfy ===
/** The distance calculator: the driving distance between two coordinates,
    optionally through a detour, and the smaller of the two detours two
    drivers would make to carry each other. Every operation returns its
    outcome together with the routing requests it issued, in order. */
module DistanceCalculator {
  import opened RubyValues
  import opened Coordinates
  import opened Detours
  import opened Routing

  /** The outcome of an operation and the routing requests it issued. */
  datatype Run<T> = Run(outcome: Outcome<T>, queries: seq<Route>)

  /** The HTTP status the routing service uses for an unreachable location. */
  const NotFoundStatus := 404

  /** How the reply to a route request becomes the result of `distance`, as
      written: a reply whose first resource lacks `travelDistance` reads that
      key as nil and returns nil instead of raising. */
  function InterpretAsWritten(reply: Reply): (r: Outcome<Value>)
    ensures r == Returned(PosInf) <==> reply == HttpError(NotFoundStatus)
    ensures r == Returned(Nil) <==> reply.NoTravelDistance?
    ensures reply.Found? ==> r == Returned(Finite(reply.miles))
    ensures r.Raised? <==> !(reply.Found? || reply.NoTravelDistance? || reply == HttpError(NotFoundStatus))
    ensures r.Raised? ==> r.error.DistanceError?
    ensures reply.HttpError? && reply.status != NotFoundStatus ==>
              r == Raised(DistanceError(ServerStatus(reply.status)))
    ensures reply.Unparseable? ==> r == Raised(DistanceError(InvalidResponse))
    ensures reply.Incomplete? ==> r == Raised(DistanceError(IncompleteResponse))
  {
    match reply
    case Found(miles) => Returned(Finite(miles))
    case HttpError(status) =>
      if status == NotFoundStatus then Returned(PosInf)
      else Raised(DistanceError(ServerStatus(status)))
    case Unparseable => Raised(DistanceError(InvalidResponse))
    case Incomplete => Raised(DistanceError(IncompleteResponse))
    case NoTravelDistance => Returned(Nil)
  }

  /** How the reply to a route request becomes the result of `distance`, as
      documented: a distance, Infinity for an unreachable location, and a
      `DistanceError` for every reply that is neither. */
  function Interpret(reply: Reply): (r: Outcome<Value>)
    ensures r == Returned(PosInf) <==> reply == HttpError(NotFoundStatus)
    ensures r.Returned? <==> reply.Found? || reply == HttpError(NotFoundStatus)
    ensures reply.Found? ==> r == Returned(Finite(reply.miles))
    ensures r.Raised? ==> r.error.DistanceError?
    ensures r.Returned? ==> r.value.Finite? || r.value.PosInf?
    ensures reply.HttpError? && reply.status != NotFoundStatus ==>
              r == Raised(DistanceError(ServerStatus(reply.status)))
    // agrees with the code as written wherever that returns a number or raises
    ensures !reply.NoTravelDistance? ==> r == InterpretAsWritten(reply)
  {
    match reply
    case NoTravelDistance => Raised(DistanceError(IncompleteResponse))
    case _ => InterpretAsWritten(reply)
  }

  /** The route requested for a trip from `start` to `terminus`: the two
      stops, with the detour's ends as via points between them. A detour
      with a nil end cannot be serialised: asking nil for its query
      parameter fails, so there is no route. */
  function RouteFor(start: Coordinate, terminus: Coordinate, detour: Option<Detour>): (w: Option<Route>)
    ensures w.None? <==> detour.Some? && (detour.value.start.None? || detour.value.terminus.None?)
    ensures w.Some? ==>
              |w.value| >= 2 && w.value[0] == Stop(start) && w.value[|w.value| - 1] == Stop(terminus)
    ensures w.Some? ==> forall i :: 0 < i < |w.value| - 1 ==> w.value[i].Via?
    ensures detour.None? ==> w == Some([Stop(start), Stop(terminus)])
    ensures w.Some? && detour.Some? ==>
              w.value[1..|w.value| - 1] == [Via(detour.value.start.value), Via(detour.value.terminus.value)]
  {
    match detour
    case None => Some([Stop(start), Stop(terminus)])
    case Some(Detour(Some(s), Some(t))) => Some([Stop(start), Via(s), Via(t), Stop(terminus)])
    case Some(_) => None
  }

  /** The trip needs no travel at all: it returns to where it began, and
      either has no detour or a detour that begins there and adds nothing.
      Only the detour's start is compared with the trip's start. */
  function ZeroTrip(start: Coordinate, terminus: Coordinate, detour: Option<Detour>): (z: bool)
    // the detour, if any, starts at the trip's start and ends there or at nil
    ensures z <==> start == terminus
                   && (detour.None?
                       || (detour.value.start == Some(start)
                           && (detour.value.terminus.None? || detour.value.terminus == Some(start))))
    // a detour that only ends at the trip's start still needs travel
    ensures detour.Some? && detour.value.start != Some(start) ==> !z
  {
    start == terminus
    && (detour.None? || (detour.value.start == Some(start) && NoDistance(detour.value)))
  }

  /** `DistanceCalculator.distance(start, terminus, detour)`. A nil end or an
      invalid detour is unreachable without asking the routing service; a
      trip that needs no travel is 0 miles; anything else is one request to
      the routing service, whose reply decides the outcome. */
  function Distance(provider: Provider, start: Option<Coordinate>, terminus: Option<Coordinate>,
                    detour: Option<Detour>): (r: Run<Value>)
    ensures |r.queries| <= 1
    ensures start.None? || terminus.None? || (detour.Some? && Invalid(detour.value)) ==>
              r == Run(Returned(PosInf), [])
    ensures start.Some? && terminus.Some? && (detour.None? || Valid(detour.value))
            && ZeroTrip(start.value, terminus.value, detour) ==>
              r == Run(Returned(Finite(0.0)), [])
    ensures r.queries != [] ==>
              start.Some? && terminus.Some? && !ZeroTrip(start.value, terminus.value, detour)
              && RouteFor(start.value, terminus.value, detour) == Some(r.queries[0])
              && r.outcome == Interpret(provider(r.queries[0]))
    ensures start.Some? && terminus.Some? && !ZeroTrip(start.value, terminus.value, detour)
            && (detour.None? || (detour.value.start.Some? && detour.value.terminus.Some?)) ==>
              r.queries == [RouteFor(start.value, terminus.value, detour).value]
    // a detour with two nil ends is valid, but serialising it calls a method on nil
    ensures start.Some? && terminus.Some? && detour == Some(Detour(None, None)) ==>
              r == Run(Raised(NoMethodError), [])
    ensures r.queries == [] && r.outcome.Raised? ==>
              r.outcome == Raised(NoMethodError) && detour == Some(Detour(None, None))
    ensures r.outcome.Returned? ==> r.outcome.value.Finite? || r.outcome.value.PosInf?
  {
    if start.None? || terminus.None? || (detour.Some? && Invalid(detour.value)) then
      Run(Returned(PosInf), [])
    else if ZeroTrip(start.value, terminus.value, detour) then
      Run(Returned(Finite(0.0)), [])
    else
      match RouteFor(start.value, terminus.value, detour)
      case None => Run(Raised(NoMethodError), [])
      case Some(w) => Run(Interpret(provider(w)), [w])
  }

  /** `withDetour - distance(x, y)`: the direct distance is requested first,
      and its errors win over any error of the subtraction. */
  function ExtraDistance(provider: Provider, withDetour: Value, x: Coordinate, y: Coordinate): (r: Run<Value>)
    // a direct trip to the same point is 0 miles and needs no request, so
    // the subtraction leaves any number unchanged
    ensures x == y ==> r.queries == []
    ensures x == y ==> r.outcome == if withDetour.Nil? then Raised(NoMethodError) else Returned(withDetour)
    ensures x != y ==> r.queries == [[Stop(x), Stop(y)]]
    ensures x != y && provider([Stop(x), Stop(y)]).Found? ==>
              r.outcome == Subtract(withDetour, Finite(provider([Stop(x), Stop(y)]).miles))
    ensures x != y && withDetour.Finite? && provider([Stop(x), Stop(y)]).Found? ==>
              r.outcome == Returned(Finite(withDetour.r - provider([Stop(x), Stop(y)]).miles))
    // an unreachable direct trip makes a finite detour negatively infinite
    ensures x != y && withDetour.Finite? && provider([Stop(x), Stop(y)]) == HttpError(NotFoundStatus) ==>
              r.outcome == Returned(NegInf)
    ensures x != y && Interpret(provider([Stop(x), Stop(y)])).Raised? ==>
              r.outcome == Interpret(provider([Stop(x), Stop(y)]))
  {
    var direct := Distance(provider, Some(x), Some(y), None);
    match direct.outcome
    case Raised(e) => direct
    case Returned(v) => Run(Subtract(withDetour, v), direct.queries)
  }

  /** `DistanceCalculator.minimum_detour_distance(a, b, c, d)`: driver one
      goes from `a` to `b`, driver two from `c` to `d`. The result is the
      smaller of the extra distance driver one covers by going through `c`
      and `d` first (ACDB - AB) and the extra distance driver two covers by
      going through `a` and `b` (CABD - CD). An unreachable ACDB ends the
      computation after that single request. Requests are issued in the
      order ACDB, AB, CABD, CD and the first exception ends the computation. */
  function MinimumDetourDistance(provider: Provider, a: Option<Coordinate>, b: Option<Coordinate>,
                                 c: Option<Coordinate>, d: Option<Coordinate>): (r: Run<Value>)
    ensures |r.queries| <= 4
    ensures a.None? || b.None? || c.None? || d.None? ==> r == Run(Returned(PosInf), [])
    ensures r.outcome.Returned? && !r.outcome.value.PosInf? ==> |r.queries| >= 1 || a == b == c == d
    ensures r.outcome.Raised? && r.outcome.error.DistanceError? ==> |r.queries| >= 1
  {
    if a.None? || b.None? || c.None? || d.None? then Run(Returned(PosInf), [])
    else
      var acdb := Distance(provider, a, b, Some(New(c, d)));
      if acdb.outcome.Raised? || acdb.outcome.value == PosInf then acdb
      else After(acdb.queries, MinimumAfterAcdb(provider, acdb.outcome.value, a.value, b.value, c.value, d.value))
  }

  /** `r`, run after the requests `earlier`. */
  function After<T>(earlier: seq<Route>, r: Run<T>): Run<T> {
    Run(r.outcome, earlier + r.queries)
  }

  /** The rest of `minimum_detour_distance` once ACDB is known and reachable:
      ACDB - AB, then driver two's side. */
  function MinimumAfterAcdb(provider: Provider, acdb: Value, a: Coordinate, b: Coordinate,
                            c: Coordinate, d: Coordinate): (r: Run<Value>)
    ensures |r.queries| <= 3
    ensures r.outcome.Raised? && r.outcome.error.DistanceError? ==> |r.queries| >= 1
  {
    var abExtra := ExtraDistance(provider, acdb, a, b);
    if abExtra.outcome.Raised? then abExtra
    else After(abExtra.queries, MinimumAfterAb(provider, abExtra.outcome.value, a, b, c, d))
  }

  /** Driver two's side of `minimum_detour_distance` once ACDB - AB is
      known: CABD - CD, and the smaller of the two extra distances. */
  function MinimumAfterAb(provider: Provider, abExtra: Value, a: Coordinate, b: Coordinate,
                          c: Coordinate, d: Coordinate): (r: Run<Value>)
    ensures |r.queries| <= 2
    ensures r.outcome.Raised? && r.outcome.error.DistanceError? ==> |r.queries| >= 1
  {
    var cabd := Distance(provider, Some(c), Some(d), Some(New(Some(a), Some(b))));
    if cabd.outcome.Raised? then cabd
    else
      var cdExtra := ExtraDistance(provider, cabd.outcome.value, c, d);
      if cdExtra.outcome.Raised? then After(cabd.queries, cdExtra)
      else Run(ArrayMin([abExtra, cdExtra.outcome.value]), cabd.queries + cdExtra.queries)
  }
}

=== FILE: distance_properties.dfy ===
/** Properties of the distance calculator that relate several calls, or a
    call to the routing requests it issues. */
module DistanceProperties {
  import opened RubyValues
  import opened Coordinates
  import opened Detours
  import opened Routing
  import opened DistanceCalculator

  /** The four requests `minimum_detour_distance` can issue, in order. */
  function AcdbRoute(a: Coordinate, b: Coordinate, c: Coordinate, d: Coordinate): Route {
    [Stop(a), Via(c), Via(d), Stop(b)]
  }

  function CabdRoute(a: Coordinate, b: Coordinate, c: Coordinate, d: Coordinate): Route {
    [Stop(c), Via(a), Via(b), Stop(d)]
  }

  function DirectRoute(x: Coordinate, y: Coordinate): Route {
    [Stop(x), Stop(y)]
  }

  /** The detour trip ACDB, as `minimum_detour_distance` asks for it first. */
  function Acdb(provider: Provider, a: Coordinate, b: Coordinate, c: Coordinate, d: Coordinate): Run<Value> {
    Distance(provider, Some(a), Some(b), Some(Detour(Some(c), Some(d))))
  }

  /** The detour trip CABD, as `minimum_detour_distance` asks for it third. */
  function Cabd(provider: Provider, a: Coordinate, b: Coordinate, c: Coordinate, d: Coordinate): Run<Value> {
    Distance(provider, Some(c), Some(d), Some(Detour(Some(a), Some(b))))
  }

  /** A direct trip without a detour. */
  function Direct(provider: Provider, x: Coordinate, y: Coordinate): Run<Value> {
    Distance(provider, Some(x), Some(y), None)
  }

  /** `xs` is `ys` with some elements left out, the rest kept in order. */
  predicate IsSubsequence<T(==)>(xs: seq<T>, ys: seq<T>)
    decreases |ys|
  {
    if ys == [] then xs == []
    else (xs != [] && xs[0] == ys[0] && IsSubsequence(xs[1..], ys[1..])) || IsSubsequence(xs, ys[1..])
  }

  /** Leaving out nothing, or everything, gives a subsequence. */
  lemma {:induction false} SubsequenceExtremes<T>(ys: seq<T>)
    ensures IsSubsequence(ys, ys) && IsSubsequence([], ys)
    decreases |ys|
  {
    if ys != [] {
      SubsequenceExtremes(ys[1..]);
    }
  }

  /** Subsequences of two sequences concatenate to a subsequence of their
      concatenation. */
  lemma {:induction false} SubsequenceConcat<T>(xs1: seq<T>, ys1: seq<T>, xs2: seq<T>, ys2: seq<T>)
    requires IsSubsequence(xs1, ys1) && IsSubsequence(xs2, ys2)
    ensures IsSubsequence(xs1 + xs2, ys1 + ys2)
    decreases |ys1|
  {
    if ys1 == [] {
      assert xs1 + xs2 == xs2 && ys1 + ys2 == ys2;
    } else {
      assert (ys1 + ys2)[1..] == ys1[1..] + ys2;
      if xs1 != [] && xs1[0] == ys1[0] && IsSubsequence(xs1[1..], ys1[1..]) {
        SubsequenceConcat(xs1[1..], ys1[1..], xs2, ys2);
        assert (xs1 + xs2)[1..] == xs1[1..] + xs2;
      } else {
        SubsequenceConcat(xs1, ys1[1..], xs2, ys2);
      }
    }
  }

  // ---------------------------------------------------------------------
  // distance

  /** A nil end makes the trip unreachable without a request. */
  lemma NilEndUnreachable(provider: Provider, p: Option<Coordinate>, detour: Option<Detour>)
    ensures Distance(provider, None, p, detour) == Run(Returned(PosInf), [])
    ensures Distance(provider, p, None, detour) == Run(Returned(PosInf), [])
  {
  }

  /** A detour with exactly one end makes the trip unreachable without a
      request. */
  lemma HalfDetourUnreachable(provider: Provider, x: Coordinate, y: Coordinate, e: Coordinate)
    ensures Distance(provider, Some(x), Some(y), Some(Detour(Some(e), None))) == Run(Returned(PosInf), [])
    ensures Distance(provider, Some(x), Some(y), Some(Detour(None, Some(e)))) == Run(Returned(PosInf), [])
  {
  }

  /** The distance from a point to itself is 0 and needs no request. */
  lemma DistanceToItself(provider: Provider, p: Coordinate)
    ensures Direct(provider, p, p) == Run(Returned(Finite(0.0)), [])
  {
  }

  /** A round trip through a detour is 0 without a request exactly when the
      detour starts at the trip's point and adds no distance; otherwise the
      routing service is asked for the whole trip. */
  lemma RoundTripThroughDetour(provider: Provider, p: Coordinate, s: Coordinate, t: Coordinate)
    ensures var r := Distance(provider, Some(p), Some(p), Some(Detour(Some(s), Some(t))));
            && (r.queries == [] <==> s == p && NoDistance(Detour(Some(s), Some(t))))
            && (r.queries == [] ==> r.outcome == Returned(Finite(0.0)))
            && (r.queries != [] ==> r.queries == [[Stop(p), Via(s), Via(t), Stop(p)]])
  {
  }

  /** The asymmetry of the zero-distance test: a round trip whose detour
      merely ends at the trip's point, or that visits two other places, is
      still sent to the routing service. */
  lemma RoundTripElsewhereQueries(provider: Provider, p: Coordinate, s: Coordinate, t: Coordinate)
    requires s != p || s != t
    ensures Distance(provider, Some(p), Some(p), Some(Detour(Some(s), Some(t)))).queries
            == [[Stop(p), Via(s), Via(t), Stop(p)]]
  {
  }

  /** A detour with both ends nil is valid, but building its request calls a
      method on nil. */
  lemma EmptyDetourCrashes(provider: Provider, x: Coordinate, y: Coordinate)
    ensures Distance(provider, Some(x), Some(y), Some(Detour(None, None))) == Run(Raised(NoMethodError), [])
  {
  }

  /** Between two different points the request lists the start, the
      detour's ends in order, and the terminus. */
  lemma WaypointOrder(provider: Provider, x: Coordinate, y: Coordinate, s: Coordinate, t: Coordinate)
    requires x != y
    ensures Direct(provider, x, y) == Run(Interpret(provider(DirectRoute(x, y))), [DirectRoute(x, y)])
    ensures Distance(provider, Some(x), Some(y), Some(Detour(Some(s), Some(t))))
            == Run(Interpret(provider(AcdbRoute(x, y, s, t))), [AcdbRoute(x, y, s, t)])
  {
  }

  /** Infinity comes back exactly when the inputs are unusable or the
      routing service answered 404; a `DistanceError` comes back exactly
      when the one request got any other failing reply. */
  lemma UnreachableIffNotFound(provider: Provider, start: Option<Coordinate>, terminus: Option<Coordinate>,
                               detour: Option<Detour>)
    ensures var r := Distance(provider, start, terminus, detour);
            && (r.outcome == Returned(PosInf) <==>
                  start.None? || terminus.None? || (detour.Some? && Invalid(detour.value))
                  || (r.queries != [] && provider(r.queries[0]) == HttpError(NotFoundStatus)))
            && (r.outcome.Raised? && r.outcome.error.DistanceError? <==>
                  r.queries != [] && !provider(r.queries[0]).Found?
                  && provider(r.queries[0]) != HttpError(NotFoundStatus))
  {
  }

  // ---------------------------------------------------------------------
  // minimum_detour_distance

  /** An unreachable ACDB ends the computation after that single request. */
  lemma EarlyExitAfterOneQuery(provider: Provider, a: Coordinate, b: Coordinate, c: Coordinate, d: Coordinate)
    requires Acdb(provider, a, b, c, d).outcome == Returned(PosInf)
    ensures MinimumDetourDistance(provider, Some(a), Some(b), Some(c), Some(d))
            == Run(Returned(PosInf), [AcdbRoute(a, b, c, d)])
  {
  }

  /** Driver two's side never turns an ordered, non-Infinity ACDB - AB into
      Infinity. */
  lemma AfterAbNotInfinity(provider: Provider, abExtra: Value, a: Coordinate, b: Coordinate,
                           c: Coordinate, d: Coordinate)
    requires Ordered(abExtra) && !abExtra.PosInf?
    ensures var r := MinimumAfterAb(provider, abExtra, a, b, c, d).outcome;
            r.Returned? ==> !r.value.PosInf?
  {
    var cabd := Cabd(provider, a, b, c, d);
    if cabd.outcome.Returned? {
      var cdExtra := ExtraDistance(provider, cabd.outcome.value, c, d);
      if cdExtra.outcome.Returned? && Ordered(cdExtra.outcome.value) {
        MinIsInfinityOnlyWhenBothAre(abExtra, cdExtra.outcome.value);
      }
    }
  }

  /** With all four points present, the result is Infinity exactly when ACDB
      is unreachable: ACDB - AB is never Infinity once ACDB is finite. */
  lemma UnreachableOnlyThroughAcdb(provider: Provider, a: Coordinate, b: Coordinate, c: Coordinate, d: Coordinate)
    ensures MinimumDetourDistance(provider, Some(a), Some(b), Some(c), Some(d)).outcome == Returned(PosInf)
            <==> Acdb(provider, a, b, c, d).outcome == Returned(PosInf)
  {
    var acdb := Acdb(provider, a, b, c, d);
    if acdb.outcome.Returned? && acdb.outcome.value.Finite? {
      var abExtra := ExtraDistance(provider, acdb.outcome.value, a, b);
      if abExtra.outcome.Returned? {
        assert Ordered(abExtra.outcome.value) && !abExtra.outcome.value.PosInf?;
        AfterAbNotInfinity(provider, abExtra.outcome.value, a, b, c, d);
        assert MinimumAfterAcdb(provider, acdb.outcome.value, a, b, c, d).outcome
               == MinimumAfterAb(provider, abExtra.outcome.value, a, b, c, d).outcome;
      }
      assert MinimumDetourDistance(provider, Some(a), Some(b), Some(c), Some(d)).outcome
             == MinimumAfterAcdb(provider, acdb.outcome.value, a, b, c, d).outcome;
    }
  }

  /** When every request succeeds, the result is the smaller of the two extra
      distances ACDB - AB and CABD - CD: it is one of them and no larger than
      either. */
  lemma MinimumIsSmallerDetour(provider: Provider, a: Coordinate, b: Coordinate, c: Coordinate, d: Coordinate)
    requires MinimumDetourDistance(provider, Some(a), Some(b), Some(c), Some(d)).outcome.Returned?
    requires Acdb(provider, a, b, c, d).outcome != Returned(PosInf)
    ensures var r := MinimumDetourDistance(provider, Some(a), Some(b), Some(c), Some(d)).outcome.value;
            var abExtra := Subtract(Acdb(provider, a, b, c, d).outcome.value, Direct(provider, a, b).outcome.value);
            var cdExtra := Subtract(Cabd(provider, a, b, c, d).outcome.value, Direct(provider, c, d).outcome.value);
            && Acdb(provider, a, b, c, d).outcome.Returned? && Direct(provider, a, b).outcome.Returned?
            && Cabd(provider, a, b, c, d).outcome.Returned? && Direct(provider, c, d).outcome.Returned?
            && abExtra.Returned? && cdExtra.Returned?
            && (r == abExtra.value || r == cdExtra.value)
            && AtMost(r, abExtra.value) && AtMost(r, cdExtra.value)
  {
  }

  /** An unreachable CABD drops out of the minimum: the result is ACDB - AB. */
  lemma UnreachableCabdFallsBack(provider: Provider, a: Coordinate, b: Coordinate, c: Coordinate, d: Coordinate,
                                 acdb: real, ab: real, cd: real)
    requires Acdb(provider, a, b, c, d).outcome == Returned(Finite(acdb))
    requires Direct(provider, a, b).outcome == Returned(Finite(ab))
    requires Cabd(provider, a, b, c, d).outcome == Returned(PosInf)
    requires Direct(provider, c, d).outcome == Returned(Finite(cd))
    ensures MinimumDetourDistance(provider, Some(a), Some(b), Some(c), Some(d)).outcome
            == Returned(Finite(acdb - ab))
  {
    var r := MinimumDetourDistance(provider, Some(a), Some(b), Some(c), Some(d));
    assert ExtraDistance(provider, Finite(acdb), a, b).outcome == Returned(Finite(acdb - ab));
    assert ExtraDistance(provider, PosInf, c, d).outcome == Returned(PosInf);
    MinOfTwo(Finite(acdb - ab), PosInf);
    assert r.outcome == ArrayMin([Finite(acdb - ab), PosInf]);
  }

  /** A request that is issued or not is a subsequence of that request. */
  lemma AtMostThisQuery(q: seq<Route>, w: Route)
    requires q == [] || q == [w]
    ensures IsSubsequence(q, [w])
  {
  }

  /** Driver two's side issues CABD and then CD, each possibly left out. */
  lemma AfterAbQueriesInOrder(provider: Provider, abExtra: Value, a: Coordinate, b: Coordinate,
                              c: Coordinate, d: Coordinate)
    ensures IsSubsequence(MinimumAfterAb(provider, abExtra, a, b, c, d).queries,
                          [CabdRoute(a, b, c, d), DirectRoute(c, d)])
  {
    var r := MinimumAfterAb(provider, abExtra, a, b, c, d);
    var q3, q4 := Cabd(provider, a, b, c, d).queries, Direct(provider, c, d).queries;
    AtMostThisQuery(q3, CabdRoute(a, b, c, d));
    AtMostThisQuery(q4, DirectRoute(c, d));
    SubsequenceExtremes([DirectRoute(c, d)]);
    if r.queries == q3 {
      SubsequenceConcat(q3, [CabdRoute(a, b, c, d)], [], [DirectRoute(c, d)]);
      assert q3 + [] == q3;
    } else {
      assert r.queries == q3 + q4;
      SubsequenceConcat(q3, [CabdRoute(a, b, c, d)], q4, [DirectRoute(c, d)]);
    }
  }

  /** Once ACDB is known, AB, CABD and CD follow in that order, each possibly
      left out. */
  lemma AfterAcdbQueriesInOrder(provider: Provider, acdb: Value, a: Coordinate, b: Coordinate,
                                c: Coordinate, d: Coordinate)
    ensures IsSubsequence(MinimumAfterAcdb(provider, acdb, a, b, c, d).queries,
                          [DirectRoute(a, b), CabdRoute(a, b, c, d), DirectRoute(c, d)])
  {
    var r := MinimumAfterAcdb(provider, acdb, a, b, c, d);
    var q2 := Direct(provider, a, b).queries;
    var rest := [CabdRoute(a, b, c, d), DirectRoute(c, d)];
    AtMostThisQuery(q2, DirectRoute(a, b));
    SubsequenceExtremes(rest);
    var abExtra := ExtraDistance(provider, acdb, a, b);
    if abExtra.outcome.Raised? {
      SubsequenceConcat(q2, [DirectRoute(a, b)], [], rest);
      assert r.queries == q2 + [];
    } else {
      var tail := MinimumAfterAb(provider, abExtra.outcome.value, a, b, c, d).queries;
      AfterAbQueriesInOrder(provider, abExtra.outcome.value, a, b, c, d);
      SubsequenceConcat(q2, [DirectRoute(a, b)], tail, rest);
      assert r.queries == q2 + tail;
    }
    assert [DirectRoute(a, b)] + rest == [DirectRoute(a, b), CabdRoute(a, b, c, d), DirectRoute(c, d)];
  }

  /** The requests issued are ACDB, AB, CABD and CD in that order, each
      possibly left out. */
  lemma QueriesInOrder(provider: Provider, a: Coordinate, b: Coordinate, c: Coordinate, d: Coordinate)
    ensures IsSubsequence(MinimumDetourDistance(provider, Some(a), Some(b), Some(c), Some(d)).queries,
                          [AcdbRoute(a, b, c, d), DirectRoute(a, b), CabdRoute(a, b, c, d), DirectRoute(c, d)])
  {
    var r := MinimumDetourDistance(provider, Some(a), Some(b), Some(c), Some(d));
    var acdb := Acdb(provider, a, b, c, d);
    var rest := [DirectRoute(a, b), CabdRoute(a, b, c, d), DirectRoute(c, d)];
    AtMostThisQuery(acdb.queries, AcdbRoute(a, b, c, d));
    SubsequenceExtremes(rest);
    if acdb.outcome.Raised? || acdb.outcome.value == PosInf {
      SubsequenceConcat(acdb.queries, [AcdbRoute(a, b, c, d)], [], rest);
      assert r.queries == acdb.queries + [];
    } else {
      var tail := MinimumAfterAcdb(provider, acdb.outcome.value, a, b, c, d).queries;
      AfterAcdbQueriesInOrder(provider, acdb.outcome.value, a, b, c, d);
      SubsequenceConcat(acdb.queries, [AcdbRoute(a, b, c, d)], tail, rest);
      assert r.queries == acdb.queries + tail;
    }
    assert [AcdbRoute(a, b, c, d)] + rest
           == [AcdbRoute(a, b, c, d), DirectRoute(a, b), CabdRoute(a, b, c, d), DirectRoute(c, d)];
  }

  /** The trips of driver two's side that need travel, in request order:
      CABD unless all four points coincide, CD unless C is D. */
  function CabdOnwards(a: Coordinate, b: Coordinate, c: Coordinate, d: Coordinate): seq<Route> {
    (if a == b == c == d then [] else [CabdRoute(a, b, c, d)])
    + (if c == d then [] else [DirectRoute(c, d)])
  }

  /** The trips after ACDB that need travel: AB unless A is B, then driver
      two's side. */
  function AbOnwards(a: Coordinate, b: Coordinate, c: Coordinate, d: Coordinate): seq<Route> {
    (if a == b then [] else [DirectRoute(a, b)]) + CabdOnwards(a, b, c, d)
  }

  /** Every trip of `minimum_detour_distance` that needs travel, in request
      order: ACDB unless all four points coincide, then the rest. */
  function NonZeroTrips(a: Coordinate, b: Coordinate, c: Coordinate, d: Coordinate): seq<Route> {
    (if a == b == c == d then [] else [AcdbRoute(a, b, c, d)]) + AbOnwards(a, b, c, d)
  }

  /** Driver two's side requests a prefix of its non-zero trips, and all of
      them when it returns. */
  lemma AfterAbRequests(provider: Provider, abExtra: Value, a: Coordinate, b: Coordinate,
                        c: Coordinate, d: Coordinate)
    ensures var r := MinimumAfterAb(provider, abExtra, a, b, c, d);
            && r.queries <= CabdOnwards(a, b, c, d)
            && (r.outcome.Returned? ==> r.queries == CabdOnwards(a, b, c, d))
  {
    var cabd := Cabd(provider, a, b, c, d);
    assert cabd.queries == (if a == b == c == d then [] else [CabdRoute(a, b, c, d)]);
    assert Direct(provider, c, d).queries == (if c == d then [] else [DirectRoute(c, d)]);
  }

  /** Everything after ACDB requests a prefix of its non-zero trips, and all
      of them when it returns. */
  lemma AfterAcdbRequests(provider: Provider, acdb: Value, a: Coordinate, b: Coordinate,
                          c: Coordinate, d: Coordinate)
    ensures var r := MinimumAfterAcdb(provider, acdb, a, b, c, d);
            && r.queries <= AbOnwards(a, b, c, d)
            && (r.outcome.Returned? ==> r.queries == AbOnwards(a, b, c, d))
  {
    var abExtra := ExtraDistance(provider, acdb, a, b);
    assert abExtra.queries == (if a == b then [] else [DirectRoute(a, b)]);
    if abExtra.outcome.Returned? {
      AfterAbRequests(provider, abExtra.outcome.value, a, b, c, d);
    }
  }

  /** The requests `minimum_detour_distance` issues are exactly the trips
      that need travel, in order, cut short only by a raised exception or an
      unreachable ACDB: every request made is the next non-zero trip, and a
      finite or negative result means every non-zero trip was requested. */
  lemma RequestsAreNonZeroTrips(provider: Provider, a: Coordinate, b: Coordinate, c: Coordinate, d: Coordinate)
    ensures var r := MinimumDetourDistance(provider, Some(a), Some(b), Some(c), Some(d));
            && r.queries <= NonZeroTrips(a, b, c, d)
            && (r.outcome.Returned? && !r.outcome.value.PosInf? ==> r.queries == NonZeroTrips(a, b, c, d))
  {
    var acdb := Acdb(provider, a, b, c, d);
    assert acdb.queries == (if a == b == c == d then [] else [AcdbRoute(a, b, c, d)]);
    if acdb.outcome.Returned? && acdb.outcome.value != PosInf {
      AfterAcdbRequests(provider, acdb.outcome.value, a, b, c, d);
    }
  }

  /** When the service finds a distance for every route and both drivers
      actually travel, all four trips are requested, in order. */
  lemma EveryTripRequested(provider: Provider, a: Coordinate, b: Coordinate, c: Coordinate, d: Coordinate)
    requires a != b && c != d
    requires forall w :: provider(w).Found?
    ensures MinimumDetourDistance(provider, Some(a), Some(b), Some(c), Some(d)).queries
            == [AcdbRoute(a, b, c, d), DirectRoute(a, b), CabdRoute(a, b, c, d), DirectRoute(c, d)]
  {
    var acdb := Acdb(provider, a, b, c, d);
    assert acdb.outcome.Returned? && acdb.outcome.value.Finite?;
    var abExtra := ExtraDistance(provider, acdb.outcome.value, a, b);
    assert abExtra.outcome.Returned? && abExtra.outcome.value.Finite?;
    var cabd := Cabd(provider, a, b, c, d);
    assert cabd.outcome.Returned? && cabd.outcome.value.Finite?;
    var cdExtra := ExtraDistance(provider, cabd.outcome.value, c, d);
    assert cdExtra.outcome.Returned? && cdExtra.outcome.value.Finite?;
    MinOfTwo(abExtra.outcome.value, cdExtra.outcome.value);
    RequestsAreNonZeroTrips(provider, a, b, c, d);
  }

  /** A failing reply ends a run: the request that received it is the last
      one issued, and its `DistanceError` is what the run raises. */
  ghost predicate FailureEnds(provider: Provider, r: Run<Value>) {
    forall i :: 0 <= i < |r.queries| && Interpret(provider(r.queries[i])).Raised? ==>
      i == |r.queries| - 1 && r.outcome == Interpret(provider(r.queries[i]))
  }

  /** Requests whose replies all succeeded do not disturb a later failure. */
  lemma FailureEndsAfter(provider: Provider, earlier: seq<Route>, r: Run<Value>)
    requires forall i :: 0 <= i < |earlier| ==> Interpret(provider(earlier[i])).Returned?
    requires FailureEnds(provider, r)
    ensures FailureEnds(provider, After(earlier, r))
  {
    var all := After(earlier, r).queries;
    forall i | 0 <= i < |all| && Interpret(provider(all[i])).Raised?
      ensures i == |all| - 1 && After(earlier, r).outcome == Interpret(provider(all[i]))
    {
      assert i >= |earlier|;
      assert all[i] == r.queries[i - |earlier|];
    }
  }

  /** A returned distance means its request, if any, got a successful reply. */
  lemma ReturnedDistanceSucceeded(provider: Provider, r: Run<Value>, start: Option<Coordinate>,
                                  terminus: Option<Coordinate>, detour: Option<Detour>)
    requires r == Distance(provider, start, terminus, detour)
    ensures FailureEnds(provider, r)
    ensures r.outcome.Returned? ==> forall i :: 0 <= i < |r.queries| ==> Interpret(provider(r.queries[i])).Returned?
  {
  }

  lemma AfterAbFailureEnds(provider: Provider, abExtra: Value, a: Coordinate, b: Coordinate,
                           c: Coordinate, d: Coordinate)
    ensures FailureEnds(provider, MinimumAfterAb(provider, abExtra, a, b, c, d))
  {
    var cabd := Cabd(provider, a, b, c, d);
    ReturnedDistanceSucceeded(provider, cabd, Some(c), Some(d), Some(Detour(Some(a), Some(b))));
    if cabd.outcome.Returned? {
      var direct := Direct(provider, c, d);
      ReturnedDistanceSucceeded(provider, direct, Some(c), Some(d), None);
      var cdExtra := ExtraDistance(provider, cabd.outcome.value, c, d);
      assert FailureEnds(provider, cdExtra);
      FailureEndsAfter(provider, cabd.queries, cdExtra);
    }
  }

  lemma AfterAcdbFailureEnds(provider: Provider, acdb: Value, a: Coordinate, b: Coordinate,
                             c: Coordinate, d: Coordinate)
    ensures FailureEnds(provider, MinimumAfterAcdb(provider, acdb, a, b, c, d))
  {
    var direct := Direct(provider, a, b);
    ReturnedDistanceSucceeded(provider, direct, Some(a), Some(b), None);
    var abExtra := ExtraDistance(provider, acdb, a, b);
    if abExtra.outcome.Returned? {
      AfterAbFailureEnds(provider, abExtra.outcome.value, a, b, c, d);
      FailureEndsAfter(provider, abExtra.queries, MinimumAfterAb(provider, abExtra.outcome.value, a, b, c, d));
    }
  }

  /** A failing reply ends `minimum_detour_distance`: the request that
      received it is the last one issued, and its `DistanceError` is what is
      raised. No failing reply is turned into Infinity. */
  lemma FailingReplyPropagates(provider: Provider, a: Coordinate, b: Coordinate, c: Coordinate, d: Coordinate)
    ensures var r := MinimumDetourDistance(provider, Some(a), Some(b), Some(c), Some(d));
            forall i :: 0 <= i < |r.queries| && Interpret(provider(r.queries[i])).Raised? ==>
              i == |r.queries| - 1 && r.outcome == Interpret(provider(r.queries[i]))
  {
    var acdb := Acdb(provider, a, b, c, d);
    ReturnedDistanceSucceeded(provider, acdb, Some(a), Some(b), Some(Detour(Some(c), Some(d))));
    if acdb.outcome.Returned? && acdb.outcome.value != PosInf {
      AfterAcdbFailureEnds(provider, acdb.outcome.value, a, b, c, d);
      FailureEndsAfter(provider, acdb.queries, MinimumAfterAcdb(provider, acdb.outcome.value, a, b, c, d));
    }
    assert FailureEnds(provider, MinimumDetourDistance(provider, Some(a), Some(b), Some(c), Some(d)));
  }

  /** The reading of unreachability the early exit rests on: a set of places
      that includes an unreachable one is itself unreachable, whatever the
      order and kind of the waypoints. */
  ghost predicate IslandConsistent(provider: Provider) {
    forall w1: Route, w2: Route ::
      Points(w2) <= Points(w1) && provider(w2) == HttpError(NotFoundStatus) ==>
        provider(w1) == HttpError(NotFoundStatus)
  }

  /** The places of a request with two detour points. */
  lemma PointsOfFour(w: Route)
    requires |w| == 4
    ensures Points(w) == {w[0].at, w[1].at, w[2].at, w[3].at}
  {
    forall p | p in Points(w)
      ensures p in {w[0].at, w[1].at, w[2].at, w[3].at}
    {
      var i :| 0 <= i < |w| && w[i].at == p;
    }
    assert w[0].at in Points(w) && w[1].at in Points(w) && w[2].at in Points(w) && w[3].at in Points(w);
  }

  /** For a consistent routing service, a reachable ACDB makes AB
      reachable: AB visits a subset of ACDB's places. */
  lemma DirectReachable(provider: Provider, x: Coordinate, y: Coordinate, s: Coordinate, t: Coordinate)
    requires IslandConsistent(provider)
    requires Acdb(provider, x, y, s, t).outcome.Returned? && Acdb(provider, x, y, s, t).outcome.value.Finite?
    ensures Direct(provider, x, y).outcome.Returned? ==> Direct(provider, x, y).outcome.value.Finite?
  {
    var direct := Direct(provider, x, y);
    if direct.queries != [] {
      var acdb := Acdb(provider, x, y, s, t);
      assert acdb.queries == [AcdbRoute(x, y, s, t)];
      assert provider(AcdbRoute(x, y, s, t)) != HttpError(NotFoundStatus);
      assert Points(DirectRoute(x, y)) == {x, y};
      PointsOfFour(AcdbRoute(x, y, s, t));
    }
  }

  /** For a consistent routing service, a reachable ACDB makes CABD
      reachable: both visit the same places. */
  lemma SwappedReachable(provider: Provider, a: Coordinate, b: Coordinate, c: Coordinate, d: Coordinate)
    requires IslandConsistent(provider)
    requires Acdb(provider, a, b, c, d).outcome.Returned? && Acdb(provider, a, b, c, d).outcome.value.Finite?
    ensures Cabd(provider, a, b, c, d).outcome.Returned? ==> Cabd(provider, a, b, c, d).outcome.value.Finite?
  {
    var cabd := Cabd(provider, a, b, c, d);
    if cabd.queries != [] {
      var acdb := Acdb(provider, a, b, c, d);
      assert acdb.queries == [AcdbRoute(a, b, c, d)];
      assert provider(AcdbRoute(a, b, c, d)) != HttpError(NotFoundStatus);
      PointsOfFour(CabdRoute(a, b, c, d));
      PointsOfFour(AcdbRoute(a, b, c, d));
    }
  }

  /** For a routing service that is consistent about unreachable places, a
      returned result is a finite distance or Infinity, never -Infinity or
      NaN. */
  lemma ConsistentProviderGivesDistance(provider: Provider, a: Coordinate, b: Coordinate, c: Coordinate, d: Coordinate)
    requires IslandConsistent(provider)
    ensures var r := MinimumDetourDistance(provider, Some(a), Some(b), Some(c), Some(d));
            r.outcome.Returned? ==> r.outcome.value.Finite? || r.outcome.value.PosInf?
  {
    var acdb := Acdb(provider, a, b, c, d);
    if acdb.outcome.Returned? && acdb.outcome.value != PosInf {
      DirectReachable(provider, a, b, c, d);
      SwappedReachable(provider, a, b, c, d);
      var abExtra := ExtraDistance(provider, acdb.outcome.value, a, b);
      var cabd := Cabd(provider, a, b, c, d);
      if abExtra.outcome.Returned? && cabd.outcome.Returned? {
        assert Acdb(provider, c, d, a, b) == cabd;
        DirectReachable(provider, c, d, a, b);
        var cdExtra := ExtraDistance(provider, cabd.outcome.value, c, d);
        if cdExtra.outcome.Returned? {
          var m := ArrayMin([abExtra.outcome.value, cdExtra.outcome.value]);
          assert m.Returned? ==> m.value in [abExtra.outcome.value, cdExtra.outcome.value];
          assert MinimumAfterAb(provider, abExtra.outcome.value, a, b, c, d).outcome == m;
        }
      }
    }
  }

  /** Without island consistency the result can be -Infinity: a reachable
      ACDB with an unreachable AB makes ACDB - AB -Infinity, and `min` keeps
      it. */
  lemma InconsistentProviderGivesNegativeInfinity(a: Coordinate, b: Coordinate, c: Coordinate, d: Coordinate)
    requires a != b && c != d
    ensures var provider := (w: Route) => if w == DirectRoute(a, b) then HttpError(NotFoundStatus) else Found(1.0);
            MinimumDetourDistance(provider, Some(a), Some(b), Some(c), Some(d)).outcome == Returned(NegInf)
  {
    var provider := (w: Route) => if w == DirectRoute(a, b) then HttpError(NotFoundStatus) else Found(1.0);
    assert AcdbRoute(a, b, c, d) != DirectRoute(a, b) && CabdRoute(a, b, c, d) != DirectRoute(a, b);
    var acdb := Acdb(provider, a, b, c, d);
    assert acdb.outcome == Returned(Finite(1.0));
    var abExtra := ExtraDistance(provider, Finite(1.0), a, b);
    assert abExtra.outcome == Returned(NegInf);
    var cabd := Cabd(provider, a, b, c, d);
    assert cabd.outcome == Returned(Finite(1.0));
    var cdExtra := ExtraDistance(provider, Finite(1.0), c, d);
    assert cdExtra.outcome.Returned? && Ordered(cdExtra.outcome.value);
    MinOfTwo(NegInf, cdExtra.outcome.value);
  }

  /** As written, a reply without `travelDistance` comes back from
      `distance` as nil rather than as a `DistanceError`, and the nil then
      fails in the subtraction of `minimum_detour_distance` with a
      `NoMethodError` (as ACDB) or a `TypeError` (as AB). */
  lemma MissingTravelDistanceReturnsNil(x: real)
    ensures InterpretAsWritten(NoTravelDistance) == Returned(Nil)
    ensures Interpret(NoTravelDistance) == Raised(DistanceError(IncompleteResponse))
    ensures Subtract(Nil, Finite(x)) == Raised(NoMethodError)
    ensures Subtract(Finite(x), Nil) == Raised(TypeError)
  {
  }

  /** A routing service whose distances are never negative and never
      shorter with a detour than without. */
  ghost predicate DetoursNeverShorter(provider: Provider) {
    && (forall w: Route :: provider(w).Found? ==> provider(w).miles >= 0.0)
    && (forall x: Coordinate, y: Coordinate, s: Coordinate, t: Coordinate ::
          provider(AcdbRoute(x, y, s, t)).Found? && provider(DirectRoute(x, y)).Found? ==>
            provider(DirectRoute(x, y)).miles <= provider(AcdbRoute(x, y, s, t)).miles)
  }

  /** The two facts about one detour trip that keep its extra distance
      non-negative. */
  predicate TripNeverShorter(provider: Provider, x: Coordinate, y: Coordinate, s: Coordinate, t: Coordinate) {
    && (provider(AcdbRoute(x, y, s, t)).Found? ==> provider(AcdbRoute(x, y, s, t)).miles >= 0.0)
    && (provider(AcdbRoute(x, y, s, t)).Found? && provider(DirectRoute(x, y)).Found? ==>
          provider(DirectRoute(x, y)).miles <= provider(AcdbRoute(x, y, s, t)).miles)
  }

  /** For such a trip, the extra distance of the detour is never negative. */
  lemma ExtraNotNegative(provider: Provider, x: Coordinate, y: Coordinate, s: Coordinate, t: Coordinate)
    requires TripNeverShorter(provider, x, y, s, t)
    requires Acdb(provider, x, y, s, t).outcome.Returned?
    ensures var extra := ExtraDistance(provider, Acdb(provider, x, y, s, t).outcome.value, x, y).outcome;
            extra.Returned? && extra.value.Finite? ==> extra.value.r >= 0.0
  {
    var withDetour := Acdb(provider, x, y, s, t);
    var direct := Direct(provider, x, y);
    if withDetour.queries != [] {
      assert withDetour.queries[0] == AcdbRoute(x, y, s, t);
      if withDetour.outcome.value.Finite? && direct.queries != [] {
        assert direct.queries[0] == DirectRoute(x, y);
      }
    }
  }

  /** The minimum of two values that are non-negative when finite is
      non-negative when finite. */
  lemma MinKeepsNotNegative(x: Value, y: Value)
    requires x.Finite? ==> x.r >= 0.0
    requires y.Finite? ==> y.r >= 0.0
    ensures var m := ArrayMin([x, y]);
            m.Returned? && m.value.Finite? ==> m.value.r >= 0.0
  {
    var m := ArrayMin([x, y]);
    assert m.Returned? ==> m.value in [x, y];
  }

  /** Driver two's side keeps a non-negative ACDB - AB non-negative. */
  lemma AfterAbNotNegative(provider: Provider, abExtra: Value, a: Coordinate, b: Coordinate,
                           c: Coordinate, d: Coordinate)
    requires TripNeverShorter(provider, c, d, a, b)
    requires abExtra.Finite? ==> abExtra.r >= 0.0
    ensures var r := MinimumAfterAb(provider, abExtra, a, b, c, d).outcome;
            r.Returned? && r.value.Finite? ==> r.value.r >= 0.0
  {
    var cabd := Cabd(provider, a, b, c, d);
    assert cabd == Acdb(provider, c, d, a, b);
    if cabd.outcome.Returned? {
      ExtraNotNegative(provider, c, d, a, b);
      var cdExtra := ExtraDistance(provider, cabd.outcome.value, c, d);
      if cdExtra.outcome.Returned? {
        assert MinimumAfterAb(provider, abExtra, a, b, c, d).outcome
               == ArrayMin([abExtra, cdExtra.outcome.value]);
        MinKeepsNotNegative(abExtra, cdExtra.outcome.value);
      }
    }
  }

  /** Once ACDB is reachable, the rest keeps the result non-negative. */
  lemma AfterAcdbNotNegative(provider: Provider, a: Coordinate, b: Coordinate, c: Coordinate, d: Coordinate)
    requires TripNeverShorter(provider, a, b, c, d) && TripNeverShorter(provider, c, d, a, b)
    requires Acdb(provider, a, b, c, d).outcome.Returned?
    ensures var r := MinimumAfterAcdb(provider, Acdb(provider, a, b, c, d).outcome.value, a, b, c, d).outcome;
            r.Returned? && r.value.Finite? ==> r.value.r >= 0.0
  {
    var acdb := Acdb(provider, a, b, c, d).outcome.value;
    ExtraNotNegative(provider, a, b, c, d);
    var abExtra := ExtraDistance(provider, acdb, a, b);
    if abExtra.outcome.Returned? {
      AfterAbNotNegative(provider, abExtra.outcome.value, a, b, c, d);
      assert MinimumAfterAcdb(provider, acdb, a, b, c, d).outcome
             == MinimumAfterAb(provider, abExtra.outcome.value, a, b, c, d).outcome;
    }
  }

  /** For a routing service whose distances are never negative and never
      shorter with a detour, a finite minimum detour is never negative. */
  lemma DetourDistanceNotNegative(provider: Provider, a: Coordinate, b: Coordinate, c: Coordinate, d: Coordinate)
    requires DetoursNeverShorter(provider)
    ensures var r := MinimumDetourDistance(provider, Some(a), Some(b), Some(c), Some(d));
            r.outcome.Returned? && r.outcome.value.Finite? ==> r.outcome.value.r >= 0.0
  {
    assert TripNeverShorter(provider, a, b, c, d);
    assert TripNeverShorter(provider, c, d, a, b);
    var acdb := Acdb(provider, a, b, c, d);
    if acdb.outcome.Returned? && acdb.outcome.value != PosInf {
      AfterAcdbNotNegative(provider, a, b, c, d);
      assert MinimumDetourDistance(provider, Some(a), Some(b), Some(c), Some(d)).outcome
             == MinimumAfterAcdb(provider, acdb.outcome.value, a, b, c, d).outcome;
    }
  }
}

=== FILE: routing.dfy ===
/** The boundary to the routing service: the ordered waypoints of a route
    request and the reply the service gives, already reduced to the cases the
    calculator distinguishes. */
module Routing {
  import opened Coordinates

  /** A point of a route request. A `Stop` is sent as a `wp.N` parameter and
      a `Via` as a `vwp.N` parameter: the route passes through a via point
      without ending a leg there. The position in the sequence is `N - 1`. */
  datatype Waypoint = Stop(at: Coordinate) | Via(at: Coordinate)

  type Route = seq<Waypoint>

  /** What one request to the routing service can come back with. */
  datatype Reply =
    | Found(miles: real)      // the first resource of the first resource set has a travelDistance
    | HttpError(status: int)  // the server answered with an HTTP error status
    | Unparseable             // the body is not JSON
    | Incomplete              // resourceSets[0] or resources[0] is missing
    | NoTravelDistance        // resources[0] is present but has no travelDistance

  /** The routing service, treated as a fixed answer to every request. */
  type Provider = Route -> Reply

  /** The coordinates a route passes through. */
  function Points(w: Route): set<Coordinate> {
    set i | 0 <= i < |w| :: w[i].at
  }
}

=== FILE: ruby_values.dfy ===
/** Ruby values as they flow through the distance calculator: optional
    references, the numbers a distance query yields (finite miles, the two
    float infinities, NaN) and nil, together with the parts of Ruby's
    arithmetic, comparison and exceptions that the calculator relies on.
 */
module RubyValues {

  /** A reference that may be nil. */
  datatype Option<+T> = None | Some(value: T)

  /** A Ruby value in the calculator's numeric positions. `Integer` and
      `Float` are not told apart: only their magnitude matters here. */
  datatype Value = Nil | Finite(r: real) | PosInf | NegInf | NaN

  /** Why a `DistanceError` was raised. */
  datatype Failure =
    | ServerStatus(code: int)   // an HTTP error status other than 404
    | InvalidResponse           // the body was not JSON
    | IncompleteResponse        // the JSON lacked the expected fields

  /** The exceptions that can leave the calculator. */
  datatype Error =
    | DistanceError(failure: Failure)
    | NoMethodError             // a method called on nil
    | TypeError                 // nil used as an operand of `-`
    | ArgumentError             // `<=>` returned nil inside `min`

  /** Either a returned value or a raised exception. */
  datatype Outcome<+T> = Returned(value: T) | Raised(error: Error)

  /** Values that `<=>` orders: every number except NaN. */
  predicate Ordered(x: Value) {
    x.Finite? || x.PosInf? || x.NegInf?
  }

  /** Strict order of the extended reals: -Infinity < finite < Infinity. */
  predicate Less(x: Value, y: Value) {
    match (x, y)
    case (NegInf, Finite(_)) => true
    case (NegInf, PosInf) => true
    case (Finite(a), Finite(b)) => a < b
    case (Finite(_), PosInf) => true
    case _ => false
  }

  /** `x <= y` for two values that `<=>` can compare. */
  predicate AtMost(x: Value, y: Value) {
    Ordered(x) && Ordered(y) && !Less(y, x)
  }

  /** Ruby's binary `-` on the calculator's values. A nil receiver has no `-`
      method; a nil argument cannot be coerced into a number; the rest is
      IEEE 754 subtraction over the extended reals. */
  function Subtract(x: Value, y: Value): (r: Outcome<Value>)
    ensures x.Nil? ==> r == Raised(NoMethodError)
    ensures !x.Nil? && y.Nil? ==> r == Raised(TypeError)
    ensures r.Returned? <==> !x.Nil? && !y.Nil?
    ensures r.Returned? ==> !r.value.Nil?
    ensures r == Returned(NaN) <==>
              (!x.Nil? && !y.Nil? && (x.NaN? || y.NaN?))
              || (x.PosInf? && y.PosInf?) || (x.NegInf? && y.NegInf?)
    ensures x.Finite? && y.Finite? ==> r == Returned(Finite(x.r - y.r))
    // an infinite operand makes any defined difference infinite
    ensures r.Returned? && !r.value.NaN? && !(x.Finite? && y.Finite?) ==> !r.value.Finite?
    // the sign of a defined difference is the order of its operands
    ensures r.Returned? && Ordered(r.value) ==>
              Ordered(x) && Ordered(y)
              && (Less(r.value, Finite(0.0)) <==> Less(x, y))
              && (Less(Finite(0.0), r.value) <==> Less(y, x))
  {
    match (x, y)
    case (Nil, _) => Raised(NoMethodError)
    case (_, Nil) => Raised(TypeError)
    case (NaN, _) => Returned(NaN)
    case (_, NaN) => Returned(NaN)
    case (Finite(a), Finite(b)) => Returned(Finite(a - b))
    case (PosInf, PosInf) => Returned(NaN)
    case (NegInf, NegInf) => Returned(NaN)
    case (PosInf, _) => Returned(PosInf)
    case (NegInf, _) => Returned(NegInf)
    case (_, PosInf) => Returned(NegInf)
    case (_, NegInf) => Returned(PosInf)
  }

  /** `x <=> y` returns a number: both are numbers other than NaN, or both
      are nil (`nil <=> nil` is 0, as an object compares equal to itself). */
  predicate Comparable(x: Value, y: Value) {
    (Ordered(x) && Ordered(y)) || (x.Nil? && y.Nil?)
  }

  /** `least` and every element of `rest` are numbers other than NaN, or all
      of them are nil: then every comparison a scan makes returns a number. */
  predicate Uniform(least: Value, rest: seq<Value>) {
    || (Ordered(least) && forall i :: 0 <= i < |rest| ==> Ordered(rest[i]))
    || (least.Nil? && forall i :: 0 <= i < |rest| ==> rest[i].Nil?)
  }

  /** Ruby's `min` on an array: the empty array gives nil, a single element
      is returned without any comparison, and otherwise the elements are
      scanned in order, keeping the first and replacing it whenever a later
      element compares strictly smaller. A comparison with NaN, or of nil
      with a number, makes `<=>` return nil, and `min` raises. */
  function ArrayMin(xs: seq<Value>): (r: Outcome<Value>)
    ensures xs == [] ==> r == Returned(Nil)
    ensures |xs| == 1 ==> r == Returned(xs[0])
    ensures r.Raised? ==> r.error == ArgumentError
    ensures r.Raised? <==>
              && |xs| >= 2
              && (|| (exists i :: 0 <= i < |xs| && xs[i].NaN?)
                  || (exists i, j :: 0 <= i < |xs| && 0 <= j < |xs| && xs[i].Nil? && !xs[j].Nil?))
    ensures r.Returned? && xs != [] ==> r.value in xs
    ensures r.Returned? && Nil in xs ==> r == Returned(Nil)
    ensures r.Returned? && |xs| >= 2 && Nil !in xs ==> forall i :: 0 <= i < |xs| ==> AtMost(r.value, xs[i])
  {
    if xs == [] then Returned(Nil)
    else
      var r := MinFrom(xs[0], xs[1..]);
      assert forall i :: 1 <= i < |xs| ==> xs[i] == xs[1..][i - 1];
      assert Uniform(xs[0], xs[1..]) <==>
             (forall i :: 0 <= i < |xs| ==> Ordered(xs[i])) || (forall i :: 0 <= i < |xs| ==> xs[i].Nil?);
      r
  }

  /** The scan behind `ArrayMin`: `least` is the smallest element seen so
      far and `rest` the elements still to compare against it. */
  function MinFrom(least: Value, rest: seq<Value>): (r: Outcome<Value>)
    ensures r.Raised? ==> r.error == ArgumentError
    ensures r.Raised? <==> rest != [] && !Uniform(least, rest)
    ensures r.Returned? ==> r.value == least || r.value in rest
    ensures r.Returned? && least.Nil? ==> r == Returned(Nil)
    ensures r.Returned? && rest != [] && Ordered(least) ==>
              AtMost(r.value, least) && forall i :: 0 <= i < |rest| ==> AtMost(r.value, rest[i])
    decreases |rest|
  {
    if rest == [] then Returned(least)
    else if !Comparable(least, rest[0]) then Raised(ArgumentError)
    else
      var next := if Less(rest[0], least) then rest[0] else least;
      var r := MinFrom(next, rest[1..]);
      assert forall i :: 1 <= i < |rest| ==> rest[i] == rest[1..][i - 1];
      r
  }

  /** `nil <=> nil` is 0, so an array of nils has nil as its minimum; nil
      next to a number cannot be compared. */
  lemma NilsCompareEqual(x: real)
    ensures ArrayMin([Nil, Nil]) == Returned(Nil)
    ensures ArrayMin([Nil, Finite(x)]) == Raised(ArgumentError)
    ensures ArrayMin([Finite(x), Nil]) == Raised(ArgumentError)
  {
    assert [Nil, Finite(x)][1] == Finite(x);
    assert [Finite(x), Nil][1] == Nil;
  }

  /** Two ordered values: `[x, y].min` keeps `x` unless `y` is strictly
      smaller. */
  lemma MinOfTwo(x: Value, y: Value)
    requires Ordered(x) && Ordered(y)
    ensures ArrayMin([x, y]) == Returned(if Less(y, x) then y else x)
  {
    assert [x, y][1..] == [y];
  }

  /** Infinity is the minimum of two values only when both are infinite. */
  lemma MinIsInfinityOnlyWhenBothAre(x: Value, y: Value)
    requires Ordered(x) && Ordered(y)
    ensures ArrayMin([x, y]) == Returned(PosInf) <==> x.PosInf? && y.PosInf?
  {
    MinOfTwo(x, y);
  }
}
